=== FILE: README.md ===
# rest-otp: the OTP lifecycle in Dafny

This project models the one-time-passcode lifecycle of the `rest-otp` service.
A phone number asks for a six-digit code, receives it, and trades it for a session token.
The model covers four parts:

- the request policy `populateOTP`: a ten-minute throttle window, at most three requests per window, and a code that is only replaced once it is more than two minutes past its expiry instant;
- the decision logic of the two handlers, `authOtpHandler` and `authLoginHandler`, as pure step functions from a store to a new store and a typed outcome;
- the `User` / `Otp` records and the store operations `GetUser`, `SaveUser` and `ListUsers`, over a map from id to a seven-column row;
- the helpers `Clamp` and the `%06d` rendering inside `GenerateOTP`.

The model turns the program's inputs from the outside world into explicit parameters:

- The clock is a parameter. An instant is an `int` count of nanoseconds since Go's zero `time.Time`, and one `now` stands for every clock read in a call.
- `time.Sub` saturates to the 64-bit `Duration` range as in Go. `GoTime.Sub` writes that out with `Util.Clamp`.
- The random draw `n` of `GenerateOTP` is a parameter in [0, 999999).
- A driver I/O fault is an explicit boolean per store call (`fault`, `StoreFaults`). This keeps "no such row" (`Success(None)`) apart from "the store failed" (`Failure`).

Files:

- `results.dfy`: `Option` and `Result`.
- `util.dfy`: `Clamp`, decimal rendering and parsing, and `GenerateOtp`.
- `gotime.dfy`: instants, durations, and the saturating `Sub`.
- `order.dfy`: ascending id order and the sorted enumeration of ids.
- `db.dfy`: records, rows and the store.
- `policy.dfy`: `populateOTP` and its behaviour over a run of requests.
- `auth.dfy`: the two handlers.
- `lifecycle.dfy`: invariants over any history of handler calls, plus the worked scenario.

Three behaviours of the code that may look unintended are kept as written:

- Login does not look at `State`. A logged-in user who submits the still-valid code logs in again and gets another token. The registration date is kept.
- A throttled request writes nothing to the store. No window reset can precede a throttle anyway.
- The code checks expiry as `now - ExpiresAt > 2 min`, not `now > ExpiresAt`. A code is therefore accepted for four minutes after it is issued, and the request path waits that long before replacing it. `Lifecycle.StaleCodeTolerance` states the exact boundary. The model keeps this behaviour rather than correcting it.

## Model

| member | source | states |
|---|---|---|
| Util.Clamp | src/util/util.go:40-48 | with lo <= hi the result lies in [lo, hi]; an x inside the range comes back unchanged; x below lo yields lo even when the bounds are crossed; the result is always one of x, lo or hi |
| Util.ClampIdempotent | src/util/util.go:40-48 | clamping twice into the same well-formed range equals clamping once |
| Util.ClampMonotonic | src/util/util.go:40-48 | clamping into a well-formed range preserves the order of its arguments |
| Util.GenerateOtp | src/util/util.go:14-20 | the code for a draw n in [0, 999999) has 6 characters, all decimal digits, parses back to n, and is never "999999" |
| Util.FormatOtpRoundTrip | src/util/util.go:19 | parsing the `%06d` rendering of a six-digit draw yields the draw |
| Util.ParseFormatRoundTrip | src/util/util.go:19 | every six-digit string is the `%06d` rendering of the number it denotes, so the rendering is canonical |
| Util.FormatOtpInjective | src/util/util.go:19 | distinct draws give distinct codes |
| Util.FormatOtpZeroPadded | src/util/util.go:19 | a draw below 10^k is rendered with 6 - k leading zeros |
| Util.ParseDigits | src/util/util.go:19 | parsing the w low digits of n yields n modulo 10^w |
| Util.DigitsOfParse | src/util/util.go:19 | a digit string is the fixed-width rendering of its own value |
| GoTime.Sub | src/main.go:24 | the elapsed duration equals the true difference when a 64-bit Duration can hold it, and saturates to the Duration bounds otherwise |
| GoTime.Add | src/main.go:38 | the instant d after t: for any duration a 64-bit Duration can hold, t.Sub of the result gives back exactly d |
| GoTime.SubExceeds | src/main.go:36 | saturation never changes whether more than a representable limit has elapsed |
| Db.ToRow | src/db/db.go:71-82 | a record is written as seven columns in the order id, state, reg_date, otp_val, otp_exp, otp_tries, otp_first, each column holding its field's value |
| Db.ScanRow | src/db/db.go:55-60 | scanning a row that succeeds yields the record whose row it is |
| Db.ScanToRow | src/db/db.go:56-82 | every record written is read back field for field |
| Db.GetUser | src/db/db.go:54-69 | a fault is a failure; `Success(None)` exactly when no fault occurs and the id is absent, so an unreadable row is a failure and never "missing"; a found record is the stored row and carries the key as id |
| Db.SaveUser | src/db/db.go:71-84 | upsert: afterwards the id reads back as exactly the saved record, the key set gains only that id, every other row is unchanged, and well-formedness is kept |
| Db.ScanAll | src/db/db.go:97-106 | the scanned list has one record per requested id, in order, each equal to its stored row |
| Db.Page | src/db/db.go:91 | the page has at most limit elements, is empty past the end, and element i is element offset + i of the whole |
| Db.ListUsers | src/db/db.go:86-107 | at most limit records in strictly ascending id order, each equal to its stored row; an empty list, not a failure, when offset is past the end |
| Db.ListUsersByRank | src/db/db.go:87-91 | a stored id is on the page exactly when its position in ascending id order lies in [offset, offset + limit) |
| Db.PageByRank | src/db/db.go:90-91 | in an ascending enumeration of the ids, an id is on the page exactly when its rank lies in [offset, offset + limit) |
| StringOrder.LeastExists | src/db/db.go:90 | every non-empty finite set of ids has a least element in ascending order |
| StringOrder.SortedIds | src/db/db.go:90 | the enumeration lists every id of the set exactly once, in strictly ascending order |
| StringOrder.SortedRank | src/db/db.go:90 | in an ascending enumeration, the element at position i has exactly i ids before it |
| Policy.PopulateOtp | src/main.go:23-41 | the window restarts exactly when more than 10 minutes have passed since its first try; an admitted request adds exactly one try and has no retry time; a refused request leaves the whole Otp unchanged and retries at window start + 10 minutes, which is non-zero; the code is replaced by the draw with expiry now + 2 minutes only when more than 2 minutes past its expiry, and is otherwise kept; tries never exceed 3 if they started at most 3 |
| Policy.RequestsWithinWindow | src/main.go:29-34 | inside one window, the i-th further request leaves min(tries + i + 1, 3) tries, keeps the window start, and is throttled exactly when the limit was already reached |
| Policy.FreshWindow | src/main.go:24-34 | N requests in a window opened by the first of them leave min(N, 3) tries, and exactly the requests after the third are throttled |
| Policy.SameCodeWhileValid | src/main.go:36-39 | while no request is more than 2 minutes past the expiry, every request leaves the same code and expiry in place |
| Policy.TriesStayBounded | src/main.go:18-34 | however many requests arrive, the try counter never exceeds 3 if it started at most 3 |
| Auth.SaveAndSend | src/main.go:101-113 | a failed save answers with an error and writes nothing; a successful one stores the record and sends exactly its code |
| Auth.RequestOtp | src/main.go:72-113 | only a sent code writes; a store fault writes nothing and sends nothing, and a failed save of a new or admitted record answers RequestFailed; the code sent is the code stored; an unknown id gets a pending record with one try and a fresh code, and is never throttled; a logged-in record is refused without a write; a pending record over the limit gets 429 with the window's end and no write; otherwise the policy's update is saved |
| Auth.Login | src/main.go:138-178 | only success writes; a failed save after a right, unexpired code answers LoginFailed; an absent id is NoSuchPendingUser; a wrong code is Invalid whatever its age; a right code more than 2 minutes past expiry is Expired; success sets the state to logged in and the registration date only if it was unset, and leaves the id, the Otp and every other row untouched |
| Lifecycle.ApplyPreserves | src/main.go:84-171 | one handler call keeps the store well formed, keeps every id, and assigns only the two known states |
| Lifecycle.RunPreserves | src/db/db.go:9-13 | over any history, the store stays well formed, no record is deleted, and every state is Pending (0) or LoggedIn (1) |
| Lifecycle.ApplyKeepsLoggedIn | src/main.go:88-91 | one call never moves a logged-in record back to pending, and never rewrites a set registration date |
| Lifecycle.LoggedInIsFinal | src/main.go:166-169 | over any history a logged-in record stays logged in, a set registration date is never rewritten, and a logged-in record with a set date never changes at all |
| Lifecycle.FreshUserScenario | src/main.go:84-171 | a new number requesting at t, t+10s, t+20s and t+30s gets the same code three times and is then throttled until t+10min; login with that code at t+50s succeeds; a later request is refused as logged in |
| Lifecycle.StaleCodeTolerance | src/main.go:161-164 | a freshly issued code logs in up to 4 minutes after issue and is Expired after that |

## Left out

- HTTP and JSON plumbing is left out: request decoding, the empty-field checks, `httpHandleWith`, response encoding and `main`. Handler results are the outcome datatypes instead of status codes and headers.
- `adminUsersHandler` is left out, and with it the `DefaultQueryPageLimit` fallback of 50.
- The MySQL driver, the SQL text and `NewDb` session setup are left out. The table is a map from id to a seven-column row.
- Ids are compared and ordered by code point. MySQL collations, case-insensitive keys and timestamp rounding by the column type are not modelled.
- Db.ListUsers takes `offset` and `limit` as natural numbers. What MySQL does with negative values is not modelled.
- `crypto/rand` is left out. The draw is a parameter, and the fatal exit on a failed draw is not modelled.
- `SendOTP` is left out. It only logs and always returns nil, so a saved record always ends in `CodeSent`.
- `GenerateJWT` is left out because HS256 signing is a foreign library call. The outcome `TokenIssued(id)` records which id a token is requested for. A signing failure after the save is not modelled.
- The `syncChan` gate is concurrency and is left out. `GetUser` runs before the gate is taken, so load-mutate-save is not actually serialised. The model runs handler calls one at a time and claims nothing about lost updates.
- Clock reads are modelled as one instant per call. Go's monotonic clock readings and time zones are not modelled, and `Time.Add` is unbounded.
- Util.Clamp: modelled on `int` only, not on every `cmp.Ordered` type such as floating point with NaN.
- Util.GenerateOtp: the model does not state that the draw is uniform; the draw is an input.
- Db.ListUsers: a driver error in the middle of the row iteration is not modelled. The code never checks `rows.Err()`, so such an error ends the loop and returns the records read so far with no error; the model only fails on the query itself.
- Db.ScanRow: a column of the wrong kind is a scan failure. Any integer is accepted as a state, as Go's `UserState int` does.

=== FILE: auth.dfy ===
/**
 * The decision logic of the two authentication handlers, as step functions
 * from a store to a new store and a typed outcome. Request decoding, the
 * serialising gate and response encoding are not part of this model; the
 * outcome names the response the handler writes.
 */
module Auth {
  import opened Results
  import opened GoTime
  import opened Db
  import opened Policy
  import Util

  /** Which store calls fail with a driver error during one handler call. */
  datatype StoreFaults = StoreFaults(getFails: bool, saveFails: bool)

  /** Result of `authOtpHandler`. */
  datatype RequestOutcome =
    | CodeSent(id: string, code: string)   // saved, and `code` handed to `SendOTP`
    | UserLoggedIn                         // 400 "User Is Logged In"
    | TooManyRequests(retryAfter: Time)    // 429 with a Retry-After header
    | RequestFailed                        // 500 after a store error

  /** Result of `authLoginHandler`. */
  datatype LoginOutcome =
    | TokenIssued(subject: string)         // saved, and a token requested for `subject`
    | NoSuchPendingUser                    // 400
    | InvalidOtp                           // 400
    | OtpExpired                           // 400
    | LoginFailed                          // 500 after a store error

  /** The store after a handler call, and what the handler answered. */
  datatype Step<O> = Step(db: Store, outcome: O)

  /** The record stored under `id`, in a well-formed store. */
  ghost function Stored(db: Store, id: string): User
    requires Wf(db) && id in db.table
  {
    ScanRow(db.table[id]).value
  }

  /** The record `authOtpHandler` creates for an id it has never seen. */
  function NewUser(id: string, now: Time, n: int): User
    requires ValidDraw(n)
  {
    User(id, UserStatePending, ZeroTime, PopulateOtp(ZeroOtp, now, n).otp)
  }

  function SaveAndSend(db: Store, u: User, fault: bool): (r: Step<RequestOutcome>)
    ensures fault ==> r == Step(db, RequestFailed)
    ensures !fault ==> r.outcome == CodeSent(u.id, u.otp.val)
    ensures !fault ==> GetUser(r.db, u.id, false) == Success(Some(u))
    ensures !fault ==> r.db.table.Keys == db.table.Keys + {u.id}
    ensures !fault ==> forall k :: k in db.table && k != u.id ==> r.db.table[k] == db.table[k]
    ensures Wf(db) ==> Wf(r.db)
  {
    match SaveUser(db, u, fault)
    case Failure(_) => Step(db, RequestFailed)
    case Success(db') => Step(db', CodeSent(u.id, u.otp.val))
  }

  /** `authOtpHandler` for phone number `id` at instant `now`, with random draw `n`. */
  function RequestOtp(db: Store, id: string, now: Time, n: int, faults: StoreFaults): (r: Step<RequestOutcome>)
    requires ValidDraw(n)
    // only a delivered code writes to the store
    ensures !r.outcome.CodeSent? ==> r.db == db
    ensures faults.getFails ==> r == Step(db, RequestFailed)
    ensures faults.saveFails ==> !r.outcome.CodeSent?
    ensures !faults.getFails && faults.saveFails && Wf(db)
            && (id in db.table ==> Stored(db, id).state != UserStateLoggedIn && Admitted(Stored(db, id).otp, now)) ==>
              r == Step(db, RequestFailed)
    // the code handed to delivery is exactly the one stored for the id, and nothing else changed
    ensures Wf(db) ==> Wf(r.db)
    ensures Wf(db) && r.outcome.CodeSent? ==>
              r.outcome.id == id && id in r.db.table && Stored(r.db, id).otp.val == r.outcome.code
              && r.db.table.Keys == db.table.Keys + {id}
              && forall k :: k in db.table && k != id ==> r.db.table[k] == db.table[k]
    // an unknown id gets a pending record with one try and is never throttled
    ensures !faults.getFails && id !in db.table ==> !r.outcome.TooManyRequests? && !r.outcome.UserLoggedIn?
    ensures !faults.getFails && Wf(db) && id !in db.table && !faults.saveFails ==>
              r.outcome.CodeSent? && Stored(r.db, id) == NewUser(id, now, n)
              && Stored(r.db, id).state == UserStatePending
              && Stored(r.db, id).regDate == ZeroTime && Stored(r.db, id).otp.tries == 1
    ensures !faults.getFails && Wf(db) && id !in db.table && !faults.saveFails && now > OtpExpirationTime ==>
              r.outcome == CodeSent(id, Util.GenerateOtp(n))
              && Stored(r.db, id).otp.expiresAt == now + OtpExpirationTime
    // a logged-in record is refused untouched
    ensures !faults.getFails && Wf(db) && id in db.table && Stored(db, id).state == UserStateLoggedIn ==>
              r == Step(db, UserLoggedIn)
    // a pending record over the limit is refused, with the window's end as retry time
    ensures !faults.getFails && Wf(db) && id in db.table && Stored(db, id).state != UserStateLoggedIn
            && !Admitted(Stored(db, id).otp, now) && now > ZeroTime ==>
              r == Step(db, TooManyRequests(Stored(db, id).otp.firstTry + OtpRequestTimeLimit))
    // a pending record within the limit is saved with the policy's update
    ensures !faults.getFails && !faults.saveFails && Wf(db) && id in db.table
            && Stored(db, id).state != UserStateLoggedIn && Admitted(Stored(db, id).otp, now) ==>
              r.outcome.CodeSent?
              && Stored(r.db, id) == Stored(db, id).(otp := PopulateOtp(Stored(db, id).otp, now, n).otp)
  {
    match GetUser(db, id, faults.getFails)
    case Failure(_) => Step(db, RequestFailed)
    case Success(None) =>
      SaveAndSend(db, NewUser(id, now, n), faults.saveFails)
    case Success(Some(u)) =>
      if u.state == UserStateLoggedIn then Step(db, UserLoggedIn)
      else
        var p := PopulateOtp(u.otp, now, n);
        if !IsZero(p.retryAfter) then Step(db, TooManyRequests(p.retryAfter))
        else SaveAndSend(db, u.(otp := p.otp), faults.saveFails)
  }

  /** `authLoginHandler` for phone number `id` submitting `code` at instant `now`. */
  function Login(db: Store, id: string, code: string, now: Time, faults: StoreFaults): (r: Step<LoginOutcome>)
    // only a successful login writes to the store
    ensures !r.outcome.TokenIssued? ==> r.db == db
    ensures faults.getFails ==> r == Step(db, LoginFailed)
    ensures faults.saveFails ==> !r.outcome.TokenIssued?
    ensures !faults.getFails && faults.saveFails && Wf(db) && id in db.table
            && Stored(db, id).otp.val == code && !CodeLapsed(Stored(db, id).otp, now) ==>
              r == Step(db, LoginFailed)
    ensures !faults.getFails && id !in db.table ==> r == Step(db, NoSuchPendingUser)
    ensures Wf(db) ==> Wf(r.db)
    // a wrong code is refused whatever its age; the age is checked only for the right code
    ensures !faults.getFails && Wf(db) && id in db.table && Stored(db, id).otp.val != code ==>
              r == Step(db, InvalidOtp)
    ensures !faults.getFails && Wf(db) && id in db.table && Stored(db, id).otp.val == code
            && CodeLapsed(Stored(db, id).otp, now) ==>
              r == Step(db, OtpExpired)
    // success logs the record in, stamps the registration date only if unset, and touches nothing else
    ensures Wf(db) && r.outcome.TokenIssued? ==>
              r.outcome.subject == id && id in db.table
              && Stored(db, id).otp.val == code && !CodeLapsed(Stored(db, id).otp, now)
              && id in r.db.table && Stored(r.db, id) == Stored(db, id).(
                   state := UserStateLoggedIn,
                   regDate := if Stored(db, id).regDate == ZeroTime then now else Stored(db, id).regDate)
              && r.db.table.Keys == db.table.Keys
              && forall k :: k in db.table && k != id ==> r.db.table[k] == db.table[k]
    ensures !faults.getFails && !faults.saveFails && Wf(db) && id in db.table
            && Stored(db, id).otp.val == code && !CodeLapsed(Stored(db, id).otp, now) ==>
              r.outcome == TokenIssued(id)
  {
    match GetUser(db, id, faults.getFails)
    case Failure(_) => Step(db, LoginFailed)
    case Success(None) => Step(db, NoSuchPendingUser)
    case Success(Some(u)) =>
      SubExceeds(now, u.otp.expiresAt, OtpExpirationTime);
      if u.otp.val != code then Step(db, InvalidOtp)
      else if Sub(now, u.otp.expiresAt) > OtpExpirationTime then Step(db, OtpExpired)
      else
        var u' := u.(regDate := if IsZero(u.regDate) then now else u.regDate, state := UserStateLoggedIn);
        match SaveUser(db, u', faults.saveFails)
        case Failure(_) => Step(db, LoginFailed)
        case Success(db') => Step(db', TokenIssued(id))
  }
}

=== FILE: db.dfy ===
/**
 * The user records and the store behind them. The `Users` table is a map from
 * id to a row of seven columns; `SaveUser` writes a row, `GetUser` and
 * `ListUsers` scan rows back into records. A driver I/O fault is an explicit
 * `fault` argument, so "no such row" and "the store failed" stay distinct.
 */
module Db {
  import opened Results
  import opened GoTime
  import opened StringOrder

  /** `type UserState int`, with the two named states the code assigns. */
  type UserState = int
  const UserStatePending: UserState := 0
  const UserStateLoggedIn: UserState := 1

  /** A state the code itself ever assigns. */
  predicate KnownState(s: UserState) {
    s == UserStatePending || s == UserStateLoggedIn
  }

  /** The outstanding challenge: the code, its expiry, and the request-throttle window. */
  datatype Otp = Otp(val: string, expiresAt: Time, tries: int, firstTry: Time)

  datatype User = User(id: string, state: UserState, regDate: Time, otp: Otp)

  /** The `Otp` a freshly constructed `User` literal holds: every field zero. */
  const ZeroOtp: Otp := Otp("", ZeroTime, 0, ZeroTime)

  /** A column value as the SQL driver carries it. */
  datatype Column = StrCol(s: string) | IntCol(i: int) | TimeCol(t: Time)

  type Row = seq<Column>

  const ColumnCount: nat := 7

  /**
   * The bind arguments of `SaveUser`, in column order
   * id, state, reg_date, otp_val, otp_exp, otp_tries, otp_first.
   */
  function ToRow(u: User): (row: Row)
    ensures |row| == ColumnCount
    ensures row[0] == StrCol(u.id) && row[1] == IntCol(u.state) && row[2] == TimeCol(u.regDate)
    ensures row[3] == StrCol(u.otp.val) && row[4] == TimeCol(u.otp.expiresAt)
    ensures row[5] == IntCol(u.otp.tries) && row[6] == TimeCol(u.otp.firstTry)
  {
    [StrCol(u.id), IntCol(u.state), TimeCol(u.regDate),
     StrCol(u.otp.val), TimeCol(u.otp.expiresAt), IntCol(u.otp.tries), TimeCol(u.otp.firstTry)]
  }

  /** `row.Scan(&u.Id, &u.State, &u.RegDate, &u.Otp.Val, ...)`: fails on a column of the wrong kind. */
  function ScanRow(row: Row): (r: Option<User>)
    ensures r.Some? ==> ToRow(r.value) == row
  {
    if |row| == ColumnCount
       && row[0].StrCol? && row[1].IntCol? && row[2].TimeCol? && row[3].StrCol?
       && row[4].TimeCol? && row[5].IntCol? && row[6].TimeCol?
    then Some(User(row[0].s, row[1].i, row[2].t, Otp(row[3].s, row[4].t, row[5].i, row[6].t)))
    else None
  }

  /** Every record written is read back field for field. */
  lemma ScanToRow(u: User)
    ensures ScanRow(ToRow(u)) == Some(u)
  {
  }

  datatype DbError = IoError | ScanError

  datatype Store = Store(table: map<string, Row>)

  /** Every stored row scans, and its id column is its key (the table's primary key). */
  ghost predicate Wf(db: Store) {
    forall k :: k in db.table ==> ScanRow(db.table[k]).Some? && ScanRow(db.table[k]).value.id == k
  }

  /** `GetUser`: a missing id is `Success(None)`, which is not a failure. */
  function GetUser(db: Store, id: string, fault: bool): (r: Result<Option<User>, DbError>)
    ensures fault ==> r.Failure?
    ensures !fault && id !in db.table ==> r == Success(None)
    ensures r == Success(None) ==> !fault && id !in db.table
    ensures r.Success? && r.value.Some? ==> id in db.table && ToRow(r.value.value) == db.table[id]
    ensures !fault && Wf(db) && id in db.table ==> r.Success? && r.value.Some? && r.value.value.id == id
  {
    if fault then Failure(IoError)
    else if id !in db.table then Success(None)
    else
      match ScanRow(db.table[id])
      case None => Failure(ScanError)
      case Some(u) => Success(Some(u))
  }

  /**
   * `SaveUser`: insert, or on a duplicate key overwrite the six non-key columns.
   * Afterwards the id reads back as `u`, and no other id changed.
   */
  function SaveUser(db: Store, u: User, fault: bool): (r: Result<Store, DbError>)
    ensures fault <==> r.Failure?
    ensures r.Success? ==> GetUser(r.value, u.id, false) == Success(Some(u))
    ensures r.Success? ==> r.value.table.Keys == db.table.Keys + {u.id}
    ensures r.Success? ==> forall k :: k in db.table && k != u.id ==> r.value.table[k] == db.table[k]
    ensures r.Success? && Wf(db) ==> Wf(r.value)
  {
    if fault then Failure(IoError)
    else
      ScanToRow(u);
      Success(Store(db.table[u.id := ToRow(u)]))
  }

  /** Scans the rows of `ids` in order; one bad row fails the whole list. */
  function ScanAll(db: Store, ids: seq<string>): (r: Result<seq<User>, DbError>)
    requires forall i :: 0 <= i < |ids| ==> ids[i] in db.table
    ensures r.Success? ==> |r.value| == |ids|
    ensures r.Success? ==> forall i :: 0 <= i < |ids| ==> ToRow(r.value[i]) == db.table[ids[i]]
    ensures Wf(db) ==> r.Success? && forall i :: 0 <= i < |ids| ==> r.value[i].id == ids[i]
  {
    if |ids| == 0 then Success([])
    else
      match ScanRow(db.table[ids[0]])
      case None => Failure(ScanError)
      case Some(u) =>
        match ScanAll(db, ids[1..])
        case Failure(e) => Failure(e)
        case Success(us) => Success([u] + us)
  }

  /** The window `[offset, offset + limit)` of `s`, cut short at its end. */
  function Page<T>(s: seq<T>, offset: nat, limit: nat): (p: seq<T>)
    ensures |p| <= limit
    ensures offset >= |s| ==> p == []
    ensures offset < |s| ==> |p| == if offset + limit <= |s| then limit else |s| - offset
    ensures forall i :: 0 <= i < |p| ==> p[i] == s[offset + i]
  {
    if offset >= |s| then []
    else if offset + limit <= |s| then s[offset..offset + limit]
    else s[offset..]
  }

  /**
   * `ListUsers(offset, limit)`: rows in ascending id order, skipping `offset`,
   * at most `limit`; an empty list, not a failure, when none remain.
   */
  function ListUsers(db: Store, offset: nat, limit: nat, fault: bool): (r: Result<seq<User>, DbError>)
    ensures fault ==> r.Failure?
    ensures !fault && Wf(db) ==> r.Success?
    ensures r.Success? ==> |r.value| <= limit
    ensures r.Success? && offset >= |db.table| ==> r.value == []
    ensures r.Success? && Wf(db) ==> forall i, j :: 0 <= i < j < |r.value| ==> Less(r.value[i].id, r.value[j].id)
    ensures r.Success? && Wf(db) ==> forall i :: 0 <= i < |r.value| ==>
              r.value[i].id in db.table && ToRow(r.value[i]) == db.table[r.value[i].id]
  {
    if fault then Failure(IoError)
    else
      var ids := SortedIds(db.table.Keys);
      var page := Page(ids, offset, limit);
      assert StrictlyAscending(page);
      ScanAll(db, page)
  }

  /**
   * The page holds exactly the records whose position in ascending id order
   * falls in `[offset, offset + limit)`.
   */
  lemma ListUsersByRank(db: Store, offset: nat, limit: nat, k: string)
    requires Wf(db)
    requires k in db.table
    ensures (exists i :: 0 <= i < |ListUsers(db, offset, limit, false).value|
                         && ListUsers(db, offset, limit, false).value[i].id == k)
            <==> offset <= Rank(db.table.Keys, k) < offset + limit
  {
    var ids := SortedIds(db.table.Keys);
    var page := Page(ids, offset, limit);
    var us := ScanAll(db, page).value;
    assert ListUsers(db, offset, limit, false).value == us;
    PageByRank(db.table.Keys, ids, offset, limit, k);
    if k in page {
      var i :| 0 <= i < |page| && page[i] == k;
      assert us[i].id == k;
    }
  }

  /** In an ascending enumeration, an id is on the page exactly when its rank lies in the page's window. */
  lemma PageByRank(ids: set<string>, s: seq<string>, offset: nat, limit: nat, k: string)
    requires StrictlyAscending(s)
    requires forall j :: j in ids <==> j in s
    requires k in ids
    ensures k in Page(s, offset, limit) <==> offset <= Rank(ids, k) < offset + limit
  {
    var page := Page(s, offset, limit);
    var x :| 0 <= x < |s| && s[x] == k;
    SortedRank(ids, s, x);
    if offset <= x < offset + limit {
      assert page[x - offset] == k;
    }
    if k in page {
      var i :| 0 <= i < |page| && page[i] == k;
      SortedRank(ids, s, offset + i);
    }
  }
}

=== FILE: gotime.dfy ===
/**
 * The slice of Go's `time` package the OTP lifecycle relies on. An instant is
 * a count of nanoseconds since Go's zero `time.Time` (January 1, year 1, UTC),
 * so the zero instant is the "unset" sentinel the code checks with `IsZero`.
 * A duration is a count of nanoseconds; Go stores it in 64 bits and
 * `Time.Sub` saturates instead of wrapping, which the model writes out.
 */
module GoTime {
  import Util

  type Time = int
  type Duration = int

  const Second: Duration := 1_000_000_000
  const Minute: Duration := 60 * Second

  /** The bounds of Go's `time.Duration` (a signed 64-bit count of nanoseconds). */
  const MinDuration: Duration := -0x8000_0000_0000_0000
  const MaxDuration: Duration := 0x7FFF_FFFF_FFFF_FFFF

  const ZeroTime: Time := 0

  predicate IsZero(t: Time) {
    t == ZeroTime
  }

  /** `t.Sub(u)`: the elapsed time, saturated to the range of a `Duration`. */
  function Sub(t: Time, u: Time): (d: Duration)
    ensures MinDuration <= d <= MaxDuration
    ensures MinDuration <= t - u <= MaxDuration ==> d == t - u
    ensures t - u > MaxDuration ==> d == MaxDuration
    ensures t - u < MinDuration ==> d == MinDuration
  {
    Util.Clamp(t - u, MinDuration, MaxDuration)
  }

  /** `t.Add(d)`: the instant `d` after `t`; measuring back from `t` recovers any representable `d`. */
  function Add(t: Time, d: Duration): (r: Time)
    ensures MinDuration <= d <= MaxDuration ==> Sub(r, t) == d
  {
    t + d
  }

  /**
   * Saturation never changes the answer to "has more than `limit` elapsed?"
   * for a limit a `Duration` can hold, so the code's comparisons mean what
   * they say on the true difference of the two instants.
   */
  lemma SubExceeds(t: Time, u: Time, limit: Duration)
    requires MinDuration <= limit < MaxDuration
    ensures Sub(t, u) > limit <==> t - u > limit
  {
  }
}

=== FILE: lifecycle.dfy ===
/**
 * Properties of whole histories: any sequence of OTP requests and logins,
 * with any store faults, applied to one store.
 */
module Lifecycle {
  import opened GoTime
  import opened Db
  import opened Policy
  import opened Auth

  /** One handler call. */
  datatype Op =
    | RequestOp(id: string, now: Time, draw: int, faults: StoreFaults)
    | LoginOp(id: string, code: string, now: Time, faults: StoreFaults)

  predicate ValidOps(ops: seq<Op>) {
    forall i :: 0 <= i < |ops| ==> (ops[i].RequestOp? ==> ValidDraw(ops[i].draw))
  }

  function Apply(db: Store, op: Op): Store
    requires op.RequestOp? ==> ValidDraw(op.draw)
  {
    match op
    case RequestOp(id, now, n, faults) => RequestOtp(db, id, now, n, faults).db
    case LoginOp(id, code, now, faults) => Login(db, id, code, now, faults).db
  }

  function Run(db: Store, ops: seq<Op>): Store
    requires ValidOps(ops)
    decreases |ops|
  {
    if ops == [] then db else Run(Apply(db, ops[0]), ops[1..])
  }

  /** Every stored record is in one of the two states the code assigns. */
  ghost predicate KnownStates(db: Store)
    requires Wf(db)
  {
    forall k :: k in db.table ==> KnownState(Stored(db, k).state)
  }

  /** One call keeps the store well formed, keeps every id, and assigns only known states. */
  lemma ApplyPreserves(db: Store, op: Op)
    requires op.RequestOp? ==> ValidDraw(op.draw)
    requires Wf(db) && KnownStates(db)
    ensures Wf(Apply(db, op)) && KnownStates(Apply(db, op))
    ensures db.table.Keys <= Apply(db, op).table.Keys
  {
  }

  /** A logged-in record stays logged in; its registration date, once set, never changes. */
  lemma ApplyKeepsLoggedIn(db: Store, op: Op, k: string)
    requires op.RequestOp? ==> ValidDraw(op.draw)
    requires Wf(db) && k in db.table
    ensures Wf(Apply(db, op)) && k in Apply(db, op).table
    ensures Stored(db, k).state == UserStateLoggedIn ==> Stored(Apply(db, op), k).state == UserStateLoggedIn
    ensures Stored(db, k).regDate != ZeroTime ==> Stored(Apply(db, op), k).regDate == Stored(db, k).regDate
    ensures Stored(db, k).state == UserStateLoggedIn && Stored(db, k).regDate != ZeroTime ==>
              Stored(Apply(db, op), k) == Stored(db, k)
  {
  }

  /** Over any history, the store stays well formed, keeps every id, and holds only known states. */
  lemma {:induction false} RunPreserves(db: Store, ops: seq<Op>)
    requires ValidOps(ops)
    requires Wf(db) && KnownStates(db)
    ensures Wf(Run(db, ops)) && KnownStates(Run(db, ops))
    ensures db.table.Keys <= Run(db, ops).table.Keys
    decreases |ops|
  {
    if ops != [] {
      ApplyPreserves(db, ops[0]);
      RunPreserves(Apply(db, ops[0]), ops[1..]);
    }
  }

  /**
   * Logged in is absorbing: no history moves a logged-in record back to
   * pending, and a registration date, once written, is never rewritten.
   */
  lemma {:induction false} LoggedInIsFinal(db: Store, ops: seq<Op>, k: string)
    requires ValidOps(ops)
    requires Wf(db) && k in db.table
    ensures Wf(Run(db, ops)) && k in Run(db, ops).table
    ensures Stored(db, k).state == UserStateLoggedIn ==> Stored(Run(db, ops), k).state == UserStateLoggedIn
    ensures Stored(db, k).regDate != ZeroTime ==> Stored(Run(db, ops), k).regDate == Stored(db, k).regDate
    ensures Stored(db, k).state == UserStateLoggedIn && Stored(db, k).regDate != ZeroTime ==>
              Stored(Run(db, ops), k) == Stored(db, k)
    decreases |ops|
  {
    if ops != [] {
      ApplyKeepsLoggedIn(db, ops[0], k);
      LoggedInIsFinal(Apply(db, ops[0]), ops[1..], k);
    }
  }

  /**
   * A fresh phone number requesting at t, t+10s, t+20s and t+30s gets the same
   * code three times and is then throttled until t+10min; logging in with that
   * code at t+50s succeeds, and a later request is refused as logged in.
   */
  lemma FreshUserScenario(db: Store, id: string, t: Time, n: int)
    requires Wf(db) && id !in db.table
    requires t > OtpRequestTimeLimit
    requires ValidDraw(n)
    ensures var ok := StoreFaults(false, false);
            var s1 := RequestOtp(db, id, t, n, ok);
            var s2 := RequestOtp(s1.db, id, t + 10 * Second, (n + 1) % Util.OtpDrawBound, ok);
            var s3 := RequestOtp(s2.db, id, t + 20 * Second, n, ok);
            var s4 := RequestOtp(s3.db, id, t + 30 * Second, n, ok);
            var s5 := Login(s4.db, id, Util.GenerateOtp(n), t + 50 * Second, ok);
            var s6 := RequestOtp(s5.db, id, t + 60 * Second, n, ok);
            && s1.outcome == CodeSent(id, Util.GenerateOtp(n))
            && s2.outcome == CodeSent(id, Util.GenerateOtp(n))
            && s3.outcome == CodeSent(id, Util.GenerateOtp(n))
            && s4 == Step(s3.db, TooManyRequests(t + 10 * Minute))
            && s5.outcome == TokenIssued(id)
            && s6 == Step(s5.db, UserLoggedIn)
  {
    var ok := StoreFaults(false, false);
    var code := Util.GenerateOtp(n);
    FirstRequestStep(db, id, t, n);
    var s1 := RequestOtp(db, id, t, n, ok);
    ResendStep(s1.db, id, t + 10 * Second, (n + 1) % Util.OtpDrawBound);
    var s2 := RequestOtp(s1.db, id, t + 10 * Second, (n + 1) % Util.OtpDrawBound, ok);
    ResendStep(s2.db, id, t + 20 * Second, n);
    var s3 := RequestOtp(s2.db, id, t + 20 * Second, n, ok);
    ThrottleStep(s3.db, id, t + 30 * Second, n);
    var s4 := RequestOtp(s3.db, id, t + 30 * Second, n, ok);
    LoginStep(s4.db, id, code, t + 50 * Second);
    var s5 := Login(s4.db, id, code, t + 50 * Second, ok);
    LoggedInStep(s5.db, id, t + 60 * Second, n);
  }

  /**
   * Expiry is judged by `now - expiresAt > OtpExpirationTime`, so a freshly
   * issued code is accepted for twice its nominal lifetime: up to four minutes
   * after issue, and refused as expired from then on.
   */
  lemma StaleCodeTolerance(db: Store, id: string, t: Time, n: int, later: Time)
    requires Wf(db) && id !in db.table
    requires t > OtpRequestTimeLimit
    requires ValidDraw(n)
    ensures var ok := StoreFaults(false, false);
            var s1 := RequestOtp(db, id, t, n, ok);
            var s2 := Login(s1.db, id, Util.GenerateOtp(n), later, ok);
            && (later <= t + 2 * OtpExpirationTime ==> s2.outcome == TokenIssued(id))
            && (later > t + 2 * OtpExpirationTime ==> s2 == Step(s1.db, OtpExpired))
  {
    FirstRequestStep(db, id, t, n);
  }

  /** An unknown id gets a pending record whose window and code both start now. */
  lemma FirstRequestStep(db: Store, id: string, now: Time, n: int)
    requires ValidDraw(n)
    requires Wf(db) && id !in db.table
    requires now > OtpRequestTimeLimit
    ensures var r := RequestOtp(db, id, now, n, StoreFaults(false, false));
            r.outcome == CodeSent(id, Util.GenerateOtp(n))
            && Wf(r.db) && id in r.db.table && Stored(r.db, id).state == UserStatePending
            && Stored(r.db, id).otp == Otp(Util.GenerateOtp(n), now + OtpExpirationTime, 1, now)
  {
  }

  /** A pending record within its window and with a still-valid code gets the same code again. */
  lemma ResendStep(db: Store, id: string, now: Time, n: int)
    requires ValidDraw(n)
    requires Wf(db) && id in db.table && Stored(db, id).state == UserStatePending
    requires Admitted(Stored(db, id).otp, now) && !WindowLapsed(Stored(db, id).otp, now)
    requires !CodeLapsed(Stored(db, id).otp, now)
    ensures var r := RequestOtp(db, id, now, n, StoreFaults(false, false));
            r.outcome == CodeSent(id, Stored(db, id).otp.val)
            && Wf(r.db) && id in r.db.table
            && Stored(r.db, id) == Stored(db, id).(otp := Stored(db, id).otp.(tries := Stored(db, id).otp.tries + 1))
  {
  }

  /** A pending record over its limit is refused until its window ends, and nothing is written. */
  lemma ThrottleStep(db: Store, id: string, now: Time, n: int)
    requires ValidDraw(n)
    requires Wf(db) && id in db.table && Stored(db, id).state == UserStatePending
    requires !Admitted(Stored(db, id).otp, now) && now > ZeroTime
    ensures var r := RequestOtp(db, id, now, n, StoreFaults(false, false));
            r == Step(db, TooManyRequests(Stored(db, id).otp.firstTry + OtpRequestTimeLimit))
  {
  }

  /** The right, still-valid code logs the record in. */
  lemma LoginStep(db: Store, id: string, code: string, now: Time)
    requires Wf(db) && id in db.table
    requires Stored(db, id).otp.val == code && !CodeLapsed(Stored(db, id).otp, now)
    ensures var r := Login(db, id, code, now, StoreFaults(false, false));
            r.outcome == TokenIssued(id)
            && Wf(r.db) && id in r.db.table && Stored(r.db, id).state == UserStateLoggedIn
  {
  }

  /** A logged-in record refuses further requests without a write. */
  lemma LoggedInStep(db: Store, id: string, now: Time, n: int)
    requires ValidDraw(n)
    requires Wf(db) && id in db.table && Stored(db, id).state == UserStateLoggedIn
    ensures var r := RequestOtp(db, id, now, n, StoreFaults(false, false));
            r == Step(db, UserLoggedIn)
  {
  }
}

=== FILE: order.dfy ===
/**
 * The ascending order of user ids used by `ORDER BY id ASC`: lexicographic
 * comparison of code points, and the sorted enumeration of a finite set of ids.
 */
module StringOrder {

  /** `a` sorts strictly before `b`. */
  predicate Less(a: string, b: string)
    decreases |a|
  {
    if |a| == 0 then |b| > 0
    else if |b| == 0 then false
    else if a[0] != b[0] then a[0] < b[0]
    else Less(a[1..], b[1..])
  }

  lemma {:induction false} LessIrreflexive(a: string)
    ensures !Less(a, a)
    decreases |a|
  {
    if |a| > 0 {
      LessIrreflexive(a[1..]);
    }
  }

  lemma {:induction false} LessTransitive(a: string, b: string, c: string)
    requires Less(a, b) && Less(b, c)
    ensures Less(a, c)
    decreases |a|
  {
    if |a| > 0 && a[0] == b[0] && b[0] == c[0] {
      LessTransitive(a[1..], b[1..], c[1..]);
    }
  }

  lemma {:induction false} LessTotal(a: string, b: string)
    requires a != b
    ensures Less(a, b) || Less(b, a)
    decreases |a|
  {
    if |a| > 0 && |b| > 0 && a[0] == b[0] {
      assert a == [a[0]] + a[1..];
      assert b == [b[0]] + b[1..];
      LessTotal(a[1..], b[1..]);
    }
  }

  lemma LessAsymmetric(a: string, b: string)
    requires Less(a, b)
    ensures !Less(b, a)
  {
    if Less(b, a) {
      LessTransitive(a, b, a);
      LessIrreflexive(a);
    }
  }

  /** `s` lists its elements in strictly ascending order (hence without repeats). */
  predicate StrictlyAscending(s: seq<string>) {
    forall i, j :: 0 <= i < j < |s| ==> Less(s[i], s[j])
  }

  /** `m` is the least element of `ids`. */
  predicate IsLeast(m: string, ids: set<string>) {
    m in ids && forall k :: k in ids && k != m ==> Less(m, k)
  }

  lemma {:induction false} LeastExists(ids: set<string>)
    requires ids != {}
    ensures exists m :: IsLeast(m, ids)
    decreases |ids|
  {
    var x :| x in ids;
    var rest := ids - {x};
    if rest == {} {
      assert ids == {x};
      assert IsLeast(x, ids);
    } else {
      LeastExists(rest);
      var m :| IsLeast(m, rest);
      if Less(x, m) {
        forall k | k in ids && k != x
          ensures Less(x, k)
        {
          if k != m {
            LessTransitive(x, m, k);
          }
        }
        assert IsLeast(x, ids);
      } else {
        LessTotal(x, m);
        assert IsLeast(m, ids);
      }
    }
  }

  lemma LeastUnique(ids: set<string>)
    ensures forall m, m' :: IsLeast(m, ids) && IsLeast(m', ids) ==> m == m'
  {
    forall m, m' | IsLeast(m, ids) && IsLeast(m', ids)
      ensures m == m'
    {
      if m != m' {
        LessAsymmetric(m, m');
      }
    }
  }

  /** The ids of `ids`, each once, in ascending order. */
  function SortedIds(ids: set<string>): (s: seq<string>)
    ensures |s| == |ids|
    ensures forall k :: k in ids <==> k in s
    ensures StrictlyAscending(s)
    decreases |ids|
  {
    if ids == {} then []
    else
      LeastExists(ids);
      LeastUnique(ids);
      var m :| IsLeast(m, ids);
      var rest := SortedIds(ids - {m});
      [m] + rest
  }

  /** How many of `ids` sort strictly before `k`: the position `k` takes in ascending order. */
  function Rank(ids: set<string>, k: string): nat {
    |set j | j in ids && Less(j, k)|
  }

  lemma {:induction false} DistinctCard(s: seq<string>)
    requires StrictlyAscending(s)
    ensures |set i | 0 <= i < |s| :: s[i]| == |s|
  {
    if |s| > 0 {
      var p := s[..|s| - 1];
      assert StrictlyAscending(p);
      DistinctCard(p);
      var sp := set i | 0 <= i < |p| :: p[i];
      var ss := set i | 0 <= i < |s| :: s[i];
      assert ss == sp + {s[|s| - 1]};
      if s[|s| - 1] in sp {
        var i :| 0 <= i < |p| && p[i] == s[|s| - 1];
        LessIrreflexive(s[i]);
      }
    }
  }

  /** In an ascending enumeration of `ids`, the element at position `i` has rank `i`. */
  lemma SortedRank(ids: set<string>, s: seq<string>, i: int)
    requires StrictlyAscending(s)
    requires forall k :: k in ids <==> k in s
    requires 0 <= i < |s|
    ensures Rank(ids, s[i]) == i
  {
    var below := set j | j in ids && Less(j, s[i]);
    var prefix := set x | 0 <= x < i :: s[x];
    forall j | j in below
      ensures j in prefix
    {
      var x :| 0 <= x < |s| && s[x] == j;
      if x >= i {
        if x == i {
          LessIrreflexive(j);
        } else {
          LessAsymmetric(s[i], s[x]);
        }
      }
    }
    assert below == prefix;
    assert StrictlyAscending(s[..i]);
    DistinctCard(s[..i]);
    assert prefix == set x | 0 <= x < |s[..i]| :: s[..i][x];
  }
}

=== FILE: policy.dfy ===
/**
 * The request policy of `populateOTP`: the ten-minute throttle window, the
 * three-requests-per-window limit, and the two-minute code lifetime. One
 * instant `now` stands for every clock read of a call, and the random draw
 * `n` for the call to `GenerateOTP`.
 */
module Policy {
  import opened GoTime
  import opened Db
  import Util

  const OtpExpirationTime: Duration := 2 * Minute
  const OtpRequestTimeLimit: Duration := 10 * Minute
  const OtpRequestCountLimit: int := 3

  /** The updated challenge, and the time to retry at (the zero time when not throttled). */
  datatype Populated = Populated(otp: Otp, retryAfter: Time)

  /** The handler's test for a throttled request: a non-zero retry time. */
  predicate Throttled(p: Populated) {
    !IsZero(p.retryAfter)
  }

  /** More than the window length has passed since the window's first request. */
  predicate WindowLapsed(o: Otp, now: Time) {
    now - o.firstTry > OtpRequestTimeLimit
  }

  /** The request count the limit is checked against: zero once the window has lapsed. */
  function TriesInWindow(o: Otp, now: Time): int {
    if WindowLapsed(o, now) then 0 else o.tries
  }

  /** The request is within the per-window limit. */
  predicate Admitted(o: Otp, now: Time) {
    TriesInWindow(o, now) < OtpRequestCountLimit
  }

  /** More than the code lifetime has passed since the code's expiry instant. */
  predicate CodeLapsed(o: Otp, now: Time) {
    now - o.expiresAt > OtpExpirationTime
  }

  predicate ValidDraw(n: int) {
    0 <= n < Util.OtpDrawBound
  }

  /** `populateOTP(&o)` at instant `now` with draw `n`. */
  function PopulateOtp(o: Otp, now: Time, n: int): (r: Populated)
    requires ValidDraw(n)
    // the window restarts exactly when it has lapsed
    ensures r.otp.firstTry == if WindowLapsed(o, now) then now else o.firstTry
    // an admitted request counts exactly once and carries no retry time
    ensures Admitted(o, now) ==> r.otp.tries == TriesInWindow(o, now) + 1 && !Throttled(r)
    // a refused request never follows a reset, so the whole challenge is untouched
    ensures !Admitted(o, now) ==> r.otp == o && r.retryAfter == o.firstTry + OtpRequestTimeLimit
    ensures !Admitted(o, now) && now > ZeroTime ==> Throttled(r)
    // the code rotates only once it is more than the lifetime past its expiry
    ensures Admitted(o, now) && CodeLapsed(o, now) ==>
              r.otp.val == Util.GenerateOtp(n) && r.otp.expiresAt == now + OtpExpirationTime
    ensures !CodeLapsed(o, now) ==> r.otp.val == o.val && r.otp.expiresAt == o.expiresAt
    ensures o.tries <= OtpRequestCountLimit ==> r.otp.tries <= OtpRequestCountLimit
  {
    SubExceeds(now, o.firstTry, OtpRequestTimeLimit);
    var o1 := if Sub(now, o.firstTry) > OtpRequestTimeLimit then o.(firstTry := now, tries := 0) else o;
    if o1.tries < OtpRequestCountLimit then
      var o2 := o1.(tries := o1.tries + 1);
      SubExceeds(now, o2.expiresAt, OtpExpirationTime);
      var o3 :=
        if Sub(now, o2.expiresAt) > OtpExpirationTime
        then o2.(val := Util.GenerateOtp(n), expiresAt := Add(now, OtpExpirationTime))
        else o2;
      Populated(o3, ZeroTime)
    else
      Populated(o1, Add(o1.firstTry, 10 * Minute))
  }

  /** One OTP request: its instant and its random draw. */
  datatype Request = Request(now: Time, draw: int)

  predicate ValidDraws(reqs: seq<Request>) {
    forall i :: 0 <= i < |reqs| ==> ValidDraw(reqs[i].draw)
  }

  /** The results of applying the requests one after another to the same challenge. */
  function Series(o: Otp, reqs: seq<Request>): (rs: seq<Populated>)
    requires ValidDraws(reqs)
    ensures |rs| == |reqs|
    decreases |reqs|
  {
    if reqs == [] then []
    else
      var p := PopulateOtp(o, reqs[0].now, reqs[0].draw);
      [p] + Series(p.otp, reqs[1..])
  }

  function Min(a: int, b: int): int {
    if a <= b then a else b
  }

  /**
   * Inside one window that already holds `o.tries` requests, the `i`-th further
   * request leaves `min(o.tries + i + 1, 3)` tries, and is refused exactly when
   * the limit was already reached, with the window's end as its retry time.
   */
  lemma {:induction false} RequestsWithinWindow(o: Otp, reqs: seq<Request>)
    requires ValidDraws(reqs)
    requires 0 <= o.tries <= OtpRequestCountLimit
    requires forall i :: 0 <= i < |reqs| ==> ZeroTime < reqs[i].now && reqs[i].now - o.firstTry <= OtpRequestTimeLimit
    ensures forall i :: 0 <= i < |reqs| ==> Series(o, reqs)[i].otp.tries == Min(o.tries + i + 1, OtpRequestCountLimit)
    ensures forall i :: 0 <= i < |reqs| ==> Series(o, reqs)[i].otp.firstTry == o.firstTry
    ensures forall i :: 0 <= i < |reqs| ==>
              (Throttled(Series(o, reqs)[i]) <==> o.tries + i >= OtpRequestCountLimit)
    ensures forall i :: 0 <= i < |reqs| && o.tries + i >= OtpRequestCountLimit ==>
              Series(o, reqs)[i].retryAfter == o.firstTry + OtpRequestTimeLimit
    decreases |reqs|
  {
    if reqs != [] {
      var p := PopulateOtp(o, reqs[0].now, reqs[0].draw);
      RequestsWithinWindow(p.otp, reqs[1..]);
      var rs := Series(o, reqs);
      assert rs == [p] + Series(p.otp, reqs[1..]);
      forall i | 1 <= i < |reqs|
        ensures rs[i] == Series(p.otp, reqs[1..])[i - 1]
      {
      }
    }
  }

  /**
   * `N` requests in one window opened by the first of them leave `min(N, 3)`
   * tries; every request after the third is refused until the window ends.
   */
  lemma FreshWindow(o: Otp, reqs: seq<Request>)
    requires ValidDraws(reqs)
    requires |reqs| > 0
    requires WindowLapsed(o, reqs[0].now)
    requires forall i :: 0 <= i < |reqs| ==> ZeroTime < reqs[i].now && reqs[i].now - reqs[0].now <= OtpRequestTimeLimit
    ensures forall i :: 0 <= i < |reqs| ==> Series(o, reqs)[i].otp.tries == Min(i + 1, OtpRequestCountLimit)
    ensures forall i :: 0 <= i < |reqs| ==> (Throttled(Series(o, reqs)[i]) <==> i >= OtpRequestCountLimit)
  {
    var p := PopulateOtp(o, reqs[0].now, reqs[0].draw);
    var rs := Series(o, reqs);
    assert rs == [p] + Series(p.otp, reqs[1..]);
    RequestsWithinWindow(p.otp, reqs[1..]);
    forall i | 1 <= i < |reqs|
      ensures rs[i] == Series(p.otp, reqs[1..])[i - 1]
    {
    }
  }

  /** While the code is within its lifetime tolerance, repeated requests re-send the same code. */
  lemma {:induction false} SameCodeWhileValid(o: Otp, reqs: seq<Request>)
    requires ValidDraws(reqs)
    requires forall i :: 0 <= i < |reqs| ==> !CodeLapsed(o, reqs[i].now)
    ensures forall i :: 0 <= i < |reqs| ==>
              Series(o, reqs)[i].otp.val == o.val && Series(o, reqs)[i].otp.expiresAt == o.expiresAt
    decreases |reqs|
  {
    if reqs != [] {
      var p := PopulateOtp(o, reqs[0].now, reqs[0].draw);
      SameCodeWhileValid(p.otp, reqs[1..]);
      var rs := Series(o, reqs);
      assert rs == [p] + Series(p.otp, reqs[1..]);
      forall i | 1 <= i < |reqs|
        ensures rs[i] == Series(p.otp, reqs[1..])[i - 1]
      {
      }
    }
  }

  /** The try counter never climbs above the limit, however many requests arrive. */
  lemma {:induction false} TriesStayBounded(o: Otp, reqs: seq<Request>)
    requires ValidDraws(reqs)
    requires o.tries <= OtpRequestCountLimit
    ensures forall i :: 0 <= i < |reqs| ==> Series(o, reqs)[i].otp.tries <= OtpRequestCountLimit
    decreases |reqs|
  {
    if reqs != [] {
      var p := PopulateOtp(o, reqs[0].now, reqs[0].draw);
      TriesStayBounded(p.otp, reqs[1..]);
      var rs := Series(o, reqs);
      assert rs == [p] + Series(p.otp, reqs[1..]);
      forall i | 1 <= i < |reqs|
        ensures rs[i] == Series(p.otp, reqs[1..])[i - 1]
      {
      }
    }
  }
}

=== FILE: results.dfy ===
/** Failure-carrying wrappers shared by the store and the handlers. */
module Results {

  /** A value that may be missing, as a Go `*T` that may be `nil`. */
  datatype Option<+T> = None | Some(value: T)

  /** A value or an error, as a Go `(T, error)` pair where exactly one side is meaningful. */
  datatype Result<+T, +E> = Success(value: T) | Failure(error: E)
}

=== FILE: util.dfy ===
/**
 * The pure helpers of the utility package: `Clamp` and the six-digit,
 * zero-padded rendering of the random draw that `GenerateOTP` performs.
 * The draw itself is a parameter: the model never reads a random source.
 */
module Util {

  /** `rand.Int(rand.Reader, big.NewInt(999999))` draws from [0, OtpDrawBound). */
  const OtpDrawBound: int := 999999

  /** Width of the `%06d` rendering. */
  const OtpWidth: nat := 6

  /**
   * `Clamp` compares against the lower bound first, so when the bounds are
   * crossed (`lo > hi`) a value below `lo` still yields `lo`.
   */
  function Clamp(x: int, lo: int, hi: int): (r: int)
    ensures lo <= hi ==> lo <= r <= hi
    ensures lo <= x <= hi ==> r == x
    ensures x < lo ==> r == lo
    ensures lo <= x && hi < x ==> r == hi
    ensures r == x || r == lo || r == hi
  {
    if x < lo then lo
    else if x > hi then hi
    else x
  }

  /** Clamping twice into the same well-formed range changes nothing further. */
  lemma ClampIdempotent(x: int, lo: int, hi: int)
    requires lo <= hi
    ensures Clamp(Clamp(x, lo, hi), lo, hi) == Clamp(x, lo, hi)
  {
  }

  /** Clamping into a well-formed range preserves the order of its arguments. */
  lemma ClampMonotonic(x: int, y: int, lo: int, hi: int)
    requires lo <= hi
    requires x <= y
    ensures Clamp(x, lo, hi) <= Clamp(y, lo, hi)
  {
  }

  function Pow10(k: nat): (p: nat)
    ensures p >= 1
  {
    if k == 0 then 1 else 10 * Pow10(k - 1)
  }

  predicate IsDigit(c: char) {
    '0' <= c <= '9'
  }

  predicate AllDigits(s: string) {
    forall i :: 0 <= i < |s| ==> IsDigit(s[i])
  }

  function DigitChar(d: int): (c: char)
    requires 0 <= d < 10
    ensures IsDigit(c)
  {
    (d + '0' as int) as char
  }

  function DigitValue(c: char): (d: int)
    requires IsDigit(c)
    ensures 0 <= d < 10
  {
    c as int - '0' as int
  }

  /** The `width` least significant decimal digits of `n`, most significant first. */
  function Digits(n: nat, width: nat): (s: string)
    ensures |s| == width
    ensures AllDigits(s)
  {
    if width == 0 then [] else Digits(n / 10, width - 1) + [DigitChar(n % 10)]
  }

  /** The number a string of decimal digits denotes (the inverse of `%0*d`). */
  function ParseDecimal(s: string): (n: nat)
    requires AllDigits(s)
  {
    if |s| == 0 then 0 else 10 * ParseDecimal(s[..|s| - 1]) + DigitValue(s[|s| - 1])
  }

  /** `fmt.Sprintf("%06d", n)` for a draw that has at most six digits. */
  function FormatOtp(n: nat): (s: string)
    requires n < Pow10(OtpWidth)
    ensures |s| == OtpWidth
    ensures AllDigits(s)
  {
    Digits(n, OtpWidth)
  }

  /** `GenerateOTP` with its random draw `n` supplied by the caller. */
  function GenerateOtp(n: int): (s: string)
    requires 0 <= n < OtpDrawBound
    ensures |s| == OtpWidth && AllDigits(s)
    ensures ParseDecimal(s) == n
    ensures s != "999999"
  {
    FormatOtpRoundTrip(n);
    assert ParseDecimal("999999") == OtpDrawBound by {
      assert "999999"[..5] == "99999";
      assert "99999"[..4] == "9999";
      assert "9999"[..3] == "999";
      assert "999"[..2] == "99";
      assert "99"[..1] == "9";
      assert "9"[..0] == "";
    }
    FormatOtp(n)
  }

  /** A digit string denotes a number below 10 to the power of its length. */
  lemma {:induction false} ParseDecimalBound(s: string)
    requires AllDigits(s)
    ensures ParseDecimal(s) < Pow10(|s|)
  {
    if |s| > 0 {
      ParseDecimalBound(s[..|s| - 1]);
    }
  }

  lemma DivModSplit(n: nat, p: nat)
    requires p >= 1
    ensures n % (10 * p) == 10 * ((n / 10) % p) + n % 10
  {
    var q := n / 10;
    var r := n % 10;
    var a := q / p;
    var b := q % p;
    assert n == 10 * q + r;
    assert q == p * a + b;
    assert n == (10 * p) * a + (10 * b + r);
    assert 0 <= 10 * b + r < 10 * p;
    ModUnique(n, 10 * p, a, 10 * b + r);
  }

  lemma ModUnique(n: int, d: int, a: int, c: int)
    requires d > 0
    requires n == d * a + c
    requires 0 <= c < d
    ensures n % d == c
    ensures n / d == a
  {
    var q := n / d;
    var r := n % d;
    assert n == d * q + r;
    if q < a {
      MulMonotonic(d, q + 1, a);
      assert false;
    } else if q > a {
      MulMonotonic(d, a + 1, q);
      assert false;
    }
  }

  lemma MulMonotonic(d: int, x: int, y: int)
    requires d > 0
    requires x <= y
    ensures d * x <= d * y
  {
    assert d * y - d * x == d * (y - x);
  }

  /** Parsing the `width` low digits of `n` recovers `n` modulo 10^width. */
  lemma {:induction false} ParseDigits(n: nat, width: nat)
    ensures ParseDecimal(Digits(n, width)) == n % Pow10(width)
  {
    if width > 0 {
      var s := Digits(n, width);
      var prefix := Digits(n / 10, width - 1);
      assert s[..|s| - 1] == prefix;
      ParseDigits(n / 10, width - 1);
      DivModSplit(n, Pow10(width - 1));
    }
  }

  /** Rendering a draw and parsing it back yields the draw. */
  lemma FormatOtpRoundTrip(n: nat)
    requires n < Pow10(OtpWidth)
    ensures ParseDecimal(FormatOtp(n)) == n
  {
    ParseDigits(n, OtpWidth);
  }

  /** A digit string is the rendering of the number it denotes, at its own width. */
  lemma {:induction false} DigitsOfParse(s: string)
    requires AllDigits(s)
    ensures Digits(ParseDecimal(s), |s|) == s
  {
    if |s| > 0 {
      var p := s[..|s| - 1];
      var n := ParseDecimal(s);
      var d := DigitValue(s[|s| - 1]);
      ModUnique(n, 10, ParseDecimal(p), d);
      DigitsOfParse(p);
      assert DigitChar(d) == s[|s| - 1];
      assert s == p + [s[|s| - 1]];
    }
  }

  /** Every six-digit string is exactly one rendering: the `%06d` form is canonical. */
  lemma ParseFormatRoundTrip(s: string)
    requires |s| == OtpWidth && AllDigits(s)
    ensures ParseDecimal(s) < Pow10(OtpWidth)
    ensures FormatOtp(ParseDecimal(s)) == s
  {
    ParseDecimalBound(s);
    DigitsOfParse(s);
  }

  /** Distinct draws give distinct codes. */
  lemma FormatOtpInjective(m: nat, n: nat)
    requires m < Pow10(OtpWidth) && n < Pow10(OtpWidth)
    requires m != n
    ensures FormatOtp(m) != FormatOtp(n)
  {
    FormatOtpRoundTrip(m);
    FormatOtpRoundTrip(n);
  }

  /** A draw below 10^k renders with 6 - k leading zeros. */
  lemma {:induction false} DigitsLeadingZeros(n: nat, width: nat, k: nat)
    requires k <= width
    requires n < Pow10(k)
    ensures forall i :: 0 <= i < width - k ==> Digits(n, width)[i] == '0'
  {
    if width > k {
      if k == 0 {
        assert n == 0;
        ZeroDigits(width);
      } else {
        assert n / 10 < Pow10(k - 1);
        DigitsLeadingZeros(n / 10, width - 1, k - 1);
        assert Digits(n, width)[..width - 1] == Digits(n / 10, width - 1);
      }
    }
  }

  lemma {:induction false} ZeroDigits(width: nat)
    ensures forall i :: 0 <= i < width ==> Digits(0, width)[i] == '0'
  {
    if width > 0 {
      ZeroDigits(width - 1);
      assert Digits(0, width) == Digits(0, width - 1) + ['0'];
    }
  }

  lemma FormatOtpZeroPadded(n: nat, k: nat)
    requires k <= OtpWidth
    requires n < Pow10(k)
    ensures forall i :: 0 <= i < OtpWidth - k ==> FormatOtp(n)[i] == '0'
  {
    DigitsLeadingZeros(n, OtpWidth, k);
  }
}
